=== FILE: README.md ===
# Sonoff smart-relay control core in Dafny

This project models the firmware of a network-connected smart relay, `src/sonoff.cpp`. The firmware reads an active-low push button, drives a relay and an active-low status LED, and keeps its relay state in sync with a remote controller over MQTT topics below the prefix `sonoff/1/`. The model covers:

- the relay controller: `switchRelayOn`, `switchRelayOff`, `toggleRelay` and the boot-state branch of `setup`;
- the command decoder: `byteArrayToString` and `mqtt_callback`;
- the button debouncer at the head of `loop`;
- the WiFi/MQTT reconnect supervisor at the tail of `loop`.

The firmware keeps its state in globals and function-local statics. Here that state is one immutable record, `Controller.State`. One call of `loop` is the pure function `Controller.Step`, which maps the record and the pass's inputs to a new record and the trace of calls made into the MQTT client. The inputs are the button level, `millis()` as a 32-bit value, the answers of `wifiMulti.run()`, `client.connected()` and `client.connect(...)`, and the message, if any, that `client.loop()` hands to the callback. The trace records `Publish(topic, payload, retained)`, `Connect(...)`, `SetCallback`, `Subscribe(topic)` and `Pump`. `Pump` stands for `client.loop()`.

Modules, leaves first:

- `Platform`: pin levels, 32-bit unsigned arithmetic, payload bytes, topics and client events.
- `Relay`: the relay controller.
- `Command`: payload decoding and command dispatch.
- `Debounce`: the button state machine, plus runs of it over sequences of readings.
- `Supervisor`: link tracking and session (re)establishment.
- `Controller`: `setup`, one `loop` pass, and runs of passes.

Three facts about the firmware are easy to get wrong:

- On a successful connect the code publishes presence on `online` ("on"/"off"), then `NOCMD` on `cmd`, then the relay status on `relay`, once.
- The `button` "PRESS" message is published retained.
- Nothing forces the MQTT session down when the link drops. `client.connected()` stays an input, and a lost link only clears `wifiConnected` and ends the pass early.

Every accepted button edge opens a debounce window, and the exit test runs only on a reading that differs from the last accepted level. After a release the debouncer therefore rests inside the release's window. Once more than 50 ms have passed since the release, the first LOW reading of the next press only closes that window, and the press is acted on at the second reading (`Debounce.PressFromRest`). LOW readings within 50 ms of the release leave the window open (`Debounce.InsideWindow`).

The debounce exit test `buttonPressTime + 50 < now` is computed in 32-bit unsigned arithmetic, and the model keeps it that way. Away from the clock wrap, the window closes once more than 50 ms have passed (`Debounce.WindowWithoutWrap`). When an edge is stamped within 50 ms of the wrap, the sum wraps as well. The window then closes at the very next differing reading (`Debounce.NoWindowNearWrap`).

## Model

| member | source | states |
|---|---|---|
| Platform.AddU32 | src/sonoff.cpp:135 | unsigned-long addition equals the true sum below 2^32 and drops 2^32 above it |
| Relay.SwitchOn | src/sonoff.cpp:38-44 | from any state: relay on, relay pin HIGH, LED LOW, flag and pins consistent, exactly one retained "ON" on `relay` |
| Relay.SwitchOff | src/sonoff.cpp:46-52 | from any state: relay off, relay pin LOW, LED HIGH, consistent, exactly one retained "OFF" on `relay` |
| Relay.Toggle | src/sonoff.cpp:54-64 | negates the flag, leaves flag and pins consistent, reports the new value once, retained |
| Relay.Boot | src/sonoff.cpp:74-79 | the boot state equals the configured default, is consistent, and is reported once |
| Relay.SwitchRepublishes | src/sonoff.cpp:38-52 | repeating a switch leaves the state unchanged but publishes the status again each time |
| Relay.ToggleTwice | src/sonoff.cpp:54-64 | two toggles restore flag, relay pin and LED of a consistent state, reporting the opposite then the original value |
| Relay.ConsistentDeterminedByFlag | src/sonoff.cpp:38-52 | consistent states are equal iff their flags are equal |
| Command.PayloadText | src/sonoff.cpp:99-106 | the text is the NUL-free prefix of the payload, byte for character, ending at the first NUL or the end |
| Command.ByteArrayToString | src/sonoff.cpp:99-106 | the copy loop plus terminator scan yields exactly the payload's text |
| Command.PayloadTextUnique | src/sonoff.cpp:99-106 | any NUL-free prefix stopped at the first NUL or the end is the payload's text |
| Command.PayloadRoundTrip | src/sonoff.cpp:99-106 | a NUL-free payload is reproduced exactly: its text converts back to the same bytes |
| Command.TextRoundTrip | src/sonoff.cpp:99-106 | a byte-sized NUL-free text survives conversion to bytes and back |
| Command.NulTruncates | src/sonoff.cpp:99-106 | bytes after the first NUL never reach the text |
| Command.TrailingBytesIgnored | src/sonoff.cpp:99-114 | "ON", a NUL and any junk bytes switch the relay on |
| Command.Parse | src/sonoff.cpp:113-119 | each command is recognised iff the text is exactly "ON", "OFF" or "TOGGL" |
| Command.ParseText | src/sonoff.cpp:113-119 | parsing inverts the command texts, and a recognised text is its command's text |
| Command.Callback | src/sonoff.cpp:109-121 | a callback reports nothing or one status publish; reporting nothing means no state change; a change is consistent |
| Command.CallbackDispatch | src/sonoff.cpp:109-121 | "ON", "OFF" and "TOGGL" run switch-on, switch-off and toggle; an unrecognised text, and only that, changes nothing and emits nothing |
| Command.SentinelIgnored | src/sonoff.cpp:109-121 | the "NOCMD" sentinel the device publishes on `cmd` is a no-op when delivered back |
| Command.ToggleWhileOn | src/sonoff.cpp:117-118 | "TOGGL" while on switches off (relay LOW, LED HIGH) and reports "OFF" retained |
| Debounce.WindowCloses | src/sonoff.cpp:135-140 | the wrapped `pressTime + 50 < now` test or `now < pressTime` holds iff the clock went backwards, the stamp lies within 50 ms of the 2^32 wrap, or more than 50 ms have passed |
| Debounce.Poll | src/sonoff.cpp:131-151 | an unchanged level changes nothing; the level only takes the sampled value; every level change opens a window stamped now; a press is a HIGH-to-LOW edge |
| Debounce.AcceptedEdge | src/sonoff.cpp:141-150 | outside a window a differing reading sets the level, the stamp and the window, and is a press iff the new level is LOW |
| Debounce.InsideWindow | src/sonoff.cpp:133-140 | inside a window there is no press and level and stamp are kept; the window closes iff the reading differs and the wrapped exit test or the overflow escape holds |
| Debounce.FirstReleaseNoPress | src/sonoff.cpp:127-150 | because the level starts LOW, the first idle HIGH reading opens a window without a press |
| Debounce.WindowWithoutWrap | src/sonoff.cpp:135-140 | with no wrap of the sum, the window closes iff more than 50 ms elapsed or the clock went backwards |
| Debounce.NoWindowNearWrap | src/sonoff.cpp:135-140 | with a stamp within 50 ms of the wrap, the exit test holds at every time |
| Debounce.PollAll | src/sonoff.cpp:131-151 | over a run of readings, presses never outnumber the LOW readings |
| Debounce.SteadyLevel | src/sonoff.cpp:131 | readings equal to the last level change nothing and press nothing |
| Debounce.CleanPressOnce | src/sonoff.cpp:131-151 | from a state outside a window with the level HIGH, a press held for any number of LOW readings is accepted exactly once, at its first reading |
| Debounce.PressFromRest | src/sonoff.cpp:131-151 | from the resting state after a release (HIGH inside a window) with the first LOW reading meeting the exit test, that reading only closes the window: a one-reading press is lost and a longer press is accepted exactly once, at its second reading |
| Debounce.BounceSuppressed | src/sonoff.cpp:133-140 | readings within 50 ms of the stamp, with no wrap, leave an open window and everything else unchanged |
| Debounce.BounceAfterEdge | src/sonoff.cpp:131-151 | an accepted edge followed by bounces within 50 ms is one press if it went LOW and none if it went HIGH |
| Debounce.PressOneReadingLate | src/sonoff.cpp:131-151 | the reading that closes an expired window is not acted on; the next LOW reading is the press |
| Supervisor.SessionOpened | src/sonoff.cpp:175-181 | `online` "on"/"off", `cmd` "NOCMD" and the relay status, all retained, then the callback and the `cmd` subscription, in this order |
| Supervisor.TrackLink | src/sonoff.cpp:157-168 | the edge-tracked flag always ends equal to the latest link result |
| Supervisor.Supervise | src/sonoff.cpp:155-183 | the flag follows the link; link down emits nothing; a session down starts with the connect; a session up starts with one pump; consistency is kept |
| Supervisor.LinkDownReturnsEarly | src/sonoff.cpp:162-168 | link down clears the flag and makes no connect, publish, subscribe or client pass, whatever else the inputs say |
| Supervisor.ConnectSucceeds | src/sonoff.cpp:174-182 | a successful connect emits exactly the connect with last will `online` "false" retained, `online` "on"/"off", `cmd` "NOCMD", `relay` "ON"/"OFF", the callback and the `cmd` subscription, in order |
| Supervisor.ConnectFails | src/sonoff.cpp:174 | a failed connect emits only the attempt and changes no state |
| Supervisor.SessionUpPumps | src/sonoff.cpp:171-172 | with the session up the client is pumped once, an inbound message runs the callback after that, and no connect is made |
| Controller.Setup | src/sonoff.cpp:66-155 | the boot state of `setup` (lines 66-79) takes the default, is consistent, is reported once, and the statics of `loop` (lines 127-129 and 155) start at LOW, 0, idle and disconnected |
| Controller.ButtonPass | src/sonoff.cpp:141-150 | an accepted press flips the relay and emits the toggled status followed by retained "PRESS"; a pass with no press leaves the relay unchanged and emits nothing |
| Controller.Step | src/sonoff.cpp:124-185 | a pass keeps the relay consistent, leaves the flag equal to the link result, and changes the debouncer only as the button block does |
| Controller.Run | src/sonoff.cpp:124-185 | over any run, consistency is kept and the flag equals the last link result |
| Controller.BootDefaultOn | src/sonoff.cpp:21-79 | booting with the default on gives relay pin HIGH, LED LOW and one retained "ON" on `sonoff/1/relay` |
| Controller.ReachableConsistent | src/sonoff.cpp:38-79 | every state reachable from setup has flag and pins in agreement |
| Controller.ButtonBeforeNetwork | src/sonoff.cpp:126-183 | a press's status and "PRESS" come before every connectivity call of the same pass |
| Controller.LinkDownPass | src/sonoff.cpp:157-168 | with the link down a pass emits only what the button block emits and clears the flag |
| Controller.PressThenRemoteToggle | src/sonoff.cpp:124-183 | a press and a remote "TOGGL" in one pass cancel out, reported in the order press, pump, command |
| Controller.ReconnectAfterLinkLoss | src/sonoff.cpp:157-183 | after a link loss the next successful connect repeats the whole session-opening sequence with the current relay state |
| Controller.NetworkNeverPresses | src/sonoff.cpp:155-183 | the connectivity block never publishes "PRESS" |
| Controller.StepPressCount | src/sonoff.cpp:124-185 | a pass announces "PRESS" once if the debouncer accepts a press and never otherwise |
| Controller.RunMatchesDebouncer | src/sonoff.cpp:126-151 | over any run, the debouncer state and the "PRESS" count equal those of the debouncer fed only the button readings |
| Controller.CleanPressAnnouncedOnce | src/sonoff.cpp:131-151 | a press that starts outside a window with the level HIGH is announced exactly once over the loop's run |
| Controller.PressFromRestAnnounced | src/sonoff.cpp:131-151 | a press from the resting state after a release is announced exactly once over the loop's run when seen at two or more readings, and not at all when seen at one |
| Controller.RelayFollowsPresses | src/sonoff.cpp:141-183 | with no command delivered on any pass, whatever the link and session answers, the relay flag ends flipped once per press the debouncer accepts from the button readings alone |

## Left out

- WiFi access-point handling: the `addAP` loop over the credential list and the selection inside `wifiMulti.run()`. `wifi_credentials.h` is not part of this model, and `wifiMulti.run()` is a boolean input per pass. The link check in `setup` only logs, so it is not modelled.
- MQTT client internals: the broker address and port, delivery, keepalive, and whether a publish made while disconnected is dropped. Connect, publish, subscribe, set-callback and `client.loop()` are recorded as events. `client.connected()` and the connect result are inputs.
- The registration of `mqtt_callback` and its invocation from inside `client.loop()`. These are an optional inbound payload handled in the session-up branch. The callback ignores the topic, so the input carries only the payload.
- `Serial` output, including the edge-triggered link log lines, `delay` and `pinMode`. None of them has a functional effect.
- The `millis()` clock itself. Each pass receives a 32-bit `now`. Because the source calls `millis()` at most once per pass, one value per pass is faithful.
- The C++ buffer and `String` mechanics of `byteArrayToString`, such as the stack array of `length + 1` bytes. The copy loop and the terminator scan are modelled over sequences.
- The level of the relay and LED pins before `setup` writes them. `Relay.PowerOn` assumes LOW, and both switches overwrite all three fields anyway.

=== FILE: command.dfy ===
/** The command decoder: `byteArrayToString` turns an inbound payload into
    text and `mqtt_callback` maps that text onto a relay operation
    (src/sonoff.cpp lines 98-121). */
module Command {
  import opened Platform
  import Relay

  /** No payload byte is NUL. */
  predicate NulFree(p: seq<Byte>) {
    forall i :: 0 <= i < |p| ==> p[i] != 0
  }

  /** Every character fits in one byte and none is NUL: the texts a payload can carry whole. */
  predicate ByteText(s: string) {
    forall i :: 0 <= i < |s| ==> 0 < s[i] as int < 256
  }

  /** The text held by the C `String` built from the NUL-terminated copy of
      the payload: the bytes before the first NUL, each read as a character. */
  function PayloadText(p: seq<Byte>): (s: string)
    ensures |s| <= |p|
    ensures forall i :: 0 <= i < |s| ==> p[i] != 0 && s[i] == p[i] as char
    ensures |s| < |p| ==> p[|s|] == 0
  {
    if |p| == 0 || p[0] == 0 then [] else [p[0] as char] + PayloadText(p[1..])
  }

  /** The payload bytes that carry a text, one byte per character. */
  function TextBytes(s: string): (p: seq<Byte>)
    requires ByteText(s)
    ensures |p| == |s|
    ensures NulFree(p)
  {
    seq(|s|, i requires 0 <= i < |s| => s[i] as int)
  }

  /** `byteArrayToString`: copy the payload into a character buffer, then
      take the characters up to the terminator, as `String(char*)` does. */
  method ByteArrayToString(payload: seq<Byte>) returns (msg: string)
    ensures msg == PayloadText(payload)
  {
    var chars: seq<char> := [];
    var i := 0;
    while i < |payload|
      invariant 0 <= i <= |payload|
      invariant |chars| == i
      invariant forall k :: 0 <= k < i ==> chars[k] == payload[k] as char
    {
      chars := chars + [payload[i] as char];
      i := i + 1;
    }
    var n := 0;
    while n < |chars| && chars[n] != '\0'
      invariant 0 <= n <= |chars|
      invariant forall k :: 0 <= k < n ==> chars[k] != '\0'
    {
      n := n + 1;
    }
    msg := chars[..n];
    PayloadTextUnique(payload, msg);
  }

  /** Any text that is a NUL-free prefix of the payload stopped at the first
      NUL (or the end) is the payload's text. */
  lemma PayloadTextUnique(p: seq<Byte>, s: string)
    requires |s| <= |p|
    requires forall i :: 0 <= i < |s| ==> p[i] != 0 && s[i] == p[i] as char
    requires |s| < |p| ==> p[|s|] == 0
    ensures s == PayloadText(p)
  {
    var t := PayloadText(p);
    assert |s| == |t|;
  }

  /** A NUL-free payload is reproduced exactly: reading it as text and
      writing the text back gives the same bytes. */
  lemma PayloadRoundTrip(p: seq<Byte>)
    requires NulFree(p)
    ensures |PayloadText(p)| == |p|
    ensures ByteText(PayloadText(p))
    ensures TextBytes(PayloadText(p)) == p
  {
    var s := PayloadText(p);
    assert |s| == |p|;
  }

  /** The other direction: a byte-sized, NUL-free text survives the trip
      through its payload bytes. */
  lemma TextRoundTrip(s: string)
    requires ByteText(s)
    ensures PayloadText(TextBytes(s)) == s
  {
    var p := TextBytes(s);
    PayloadTextUnique(p, s);
  }

  /** A payload is read only up to its first NUL byte. */
  lemma NulTruncates(p: seq<Byte>, rest: seq<Byte>)
    requires NulFree(p)
    ensures PayloadText(p + [0] + rest) == PayloadText(p)
  {
    var q := p + [0] + rest;
    PayloadRoundTrip(p);
    PayloadTextUnique(q, PayloadText(p));
  }

  /** What `mqtt_callback` makes of a message text. */
  datatype Command = SwitchOn | SwitchOff | Toggle | Unrecognized

  /** The three texts the callback compares against, exactly. */
  function Parse(msg: string): (c: Command)
    ensures c == SwitchOn <==> msg == "ON"
    ensures c == SwitchOff <==> msg == "OFF"
    ensures c == Toggle <==> msg == "TOGGL"
  {
    if msg == "ON" then SwitchOn
    else if msg == "OFF" then SwitchOff
    else if msg == "TOGGL" then Toggle
    else Unrecognized
  }

  /** The text a remote controller sends for a recognised command. */
  function Text(c: Command): (s: string)
    requires c != Unrecognized
    ensures ByteText(s) && 2 <= |s| <= 5
  {
    match c
    case SwitchOn => "ON"
    case SwitchOff => "OFF"
    case Toggle => "TOGGL"
  }

  /** Parsing inverts the command texts, and a text that parses as a command is its text. */
  lemma ParseText(c: Command, msg: string)
    ensures c != Unrecognized ==> Parse(Text(c)) == c
    ensures Parse(msg) != Unrecognized ==> Text(Parse(msg)) == msg
  {
  }

  /** `mqtt_callback`: decode the payload and run the matching relay
      operation. A state change is always reported by one status publish,
      and a call that reports nothing changed nothing. */
  function Callback(r: Relay.RelayState, payload: seq<Byte>): (o: Relay.Outcome)
    ensures o.events == [] || o.events == [Relay.StatusPublish(o.relay.on)]
    ensures o.events == [] ==> o.relay == r
    ensures o.events != [] ==> Relay.Consistent(o.relay)
  {
    match Parse(PayloadText(payload))
    case SwitchOn => Relay.SwitchOn(r)
    case SwitchOff => Relay.SwitchOff(r)
    case Toggle => Relay.Toggle(r)
    case Unrecognized => Relay.Outcome(r, [])
  }

  /** Each recognised command runs its relay operation; anything else is a no-op. */
  lemma CallbackDispatch(r: Relay.RelayState, payload: seq<Byte>)
    ensures PayloadText(payload) == "ON" ==> Callback(r, payload) == Relay.SwitchOn(r)
    ensures PayloadText(payload) == "OFF" ==> Callback(r, payload) == Relay.SwitchOff(r)
    ensures PayloadText(payload) == "TOGGL" ==> Callback(r, payload) == Relay.Toggle(r)
    ensures Parse(PayloadText(payload)) == Unrecognized <==> Callback(r, payload) == Relay.Outcome(r, [])
  {
  }

  /** The sentinel the device itself publishes to its command topic on every
      session open is ignored when it is delivered back. */
  lemma SentinelIgnored(r: Relay.RelayState)
    ensures ByteText("NOCMD")
    ensures Callback(r, TextBytes("NOCMD")) == Relay.Outcome(r, [])
  {
    TextRoundTrip("NOCMD");
  }

  /** A remote "TOGGL" while the relay is on switches it off and reports "OFF". */
  lemma ToggleWhileOn(r: Relay.RelayState)
    requires r.on
    ensures ByteText("TOGGL")
    ensures Callback(r, TextBytes("TOGGL")).relay == Relay.RelayState(false, Low, High)
    ensures Callback(r, TextBytes("TOGGL")).events == [Publish(RelayTopic, "OFF", true)]
  {
    TextRoundTrip("TOGGL");
  }

  /** Bytes after a NUL are never looked at: "ON" followed by NUL and junk switches on. */
  lemma TrailingBytesIgnored(r: Relay.RelayState, junk: seq<Byte>)
    ensures Callback(r, [79, 78, 0] + junk) == Relay.SwitchOn(r)
  {
    NulTruncates([79, 78], junk);
    assert [79, 78] + [0] + junk == [79, 78, 0] + junk;
    PayloadRoundTrip([79, 78]);
    assert PayloadText([79, 78]) == "ON";
  }
}

=== FILE: controller.dfy ===
/** The firmware's top level: `setup` chooses the boot state, and each call
    of `loop` runs the button block and then the connectivity block
    (src/sonoff.cpp lines 66-185). The state the C++ keeps in globals and
    function-local statics is one immutable record here, and one loop pass is
    a pure function from the record and the pass's inputs to the new record
    and the client calls made. */
module Controller {
  import opened Platform
  import Relay
  import Debounce
  import Command
  import Supervisor

  /** `bool defaultOn = true`. */
  const DefaultOn: bool := true

  /** `relayOn` with both pins, the three debounce statics, and `wifiConnected`. */
  datatype State = State(relay: Relay.RelayState, button: Debounce.Button, wifiConnected: bool)

  /** What one pass reads: the button level, `millis()`, and the network answers. */
  datatype Inputs = Inputs(level: Level, now: U32, net: Supervisor.Network)

  /** The new state and the client calls made, in order. */
  datatype Outcome = Outcome(state: State, events: seq<Event>)

  /** The retained message that announces an accepted press. */
  const PressPublish: Event := Publish(ButtonTopic, "PRESS", true)

  /** `setup`: the relay is switched to the configured default and reported;
      the statics of `loop` hold their initial values. */
  function Setup(defaultOn: bool): (o: Outcome)
    ensures Relay.Consistent(o.state.relay) && o.state.relay.on == defaultOn
    ensures o.events == [Relay.StatusPublish(defaultOn)]
    ensures o.state.button == Debounce.PowerOn && !o.state.wifiConnected
  {
    var b := Relay.Boot(defaultOn);
    Outcome(State(b.relay, Debounce.PowerOn, false), b.events)
  }

  /** The button block: an accepted press toggles the relay and then announces the press. */
  function ButtonPass(s: State, level: Level, now: U32): (o: Outcome)
    ensures o.state.wifiConnected == s.wifiConnected
    ensures Relay.Consistent(s.relay) ==> Relay.Consistent(o.state.relay)
    ensures var p := Debounce.Poll(s.button, level, now);
            && (p.pressed ==> o.state.relay.on == !s.relay.on
                              && o.events == [Relay.StatusPublish(!s.relay.on), PressPublish])
            && (!p.pressed ==> o.state.relay == s.relay && o.events == [])
  {
    var p := Debounce.Poll(s.button, level, now);
    if p.pressed then
      var t := Relay.Toggle(s.relay);
      Outcome(State(t.relay, p.button, s.wifiConnected), t.events + [PressPublish])
    else
      Outcome(s.(button := p.button), [])
  }

  /** One call of `loop`: the button block, then the connectivity block on
      the relay the button block left. */
  function Step(s: State, i: Inputs): (o: Outcome)
    ensures Relay.Consistent(s.relay) ==> Relay.Consistent(o.state.relay)
    ensures o.state.wifiConnected == i.net.linkUp
    ensures o.state.button == Debounce.Poll(s.button, i.level, i.now).button
  {
    var b := ButtonPass(s, i.level, i.now);
    var n := Supervisor.Supervise(b.state.wifiConnected, b.state.relay, i.net);
    Outcome(State(n.relay, b.state.button, n.wifiConnected), b.events + n.events)
  }

  /** Consecutive calls of `loop`. */
  function Run(s: State, ins: seq<Inputs>): (o: Outcome)
    ensures Relay.Consistent(s.relay) ==> Relay.Consistent(o.state.relay)
    ensures |ins| > 0 ==> o.state.wifiConnected == ins[|ins| - 1].net.linkUp
    ensures |ins| == 0 ==> o == Outcome(s, [])
    decreases |ins|
  {
    if |ins| == 0 then Outcome(s, [])
    else
      var o1 := Step(s, ins[0]);
      var o2 := Run(o1.state, ins[1..]);
      Outcome(o2.state, o1.events + o2.events)
  }

  /** Booting with the default on drives the relay pin HIGH and the LED LOW
      and reports "ON" on the relay topic. */
  lemma BootDefaultOn()
    ensures Setup(DefaultOn).state.relay == Relay.RelayState(true, High, Low)
    ensures Setup(DefaultOn).events == [Publish("sonoff/1/relay", "ON", true)]
  {
    assert RelayTopic == "sonoff/1/relay";
  }

  /** Every state reachable from `setup` has the flag and pins in agreement. */
  lemma ReachableConsistent(defaultOn: bool, ins: seq<Inputs>)
    ensures Relay.Consistent(Run(Setup(defaultOn).state, ins).state.relay)
  {
  }

  /** A pass that accepts a press first reports the toggled relay and the
      press, before any connectivity call; a pass that accepts none begins
      with connectivity calls only. */
  lemma ButtonBeforeNetwork(s: State, i: Inputs)
    ensures var o := Step(s, i);
            var n := Supervisor.Supervise(s.wifiConnected, ButtonPass(s, i.level, i.now).state.relay, i.net);
            if Debounce.Poll(s.button, i.level, i.now).pressed then
              o.events == [Relay.StatusPublish(!s.relay.on), PressPublish] + n.events
            else
              o.events == n.events
  {
  }

  /** While the link is down a pass makes no connectivity call at all: only
      an accepted press changes the relay or emits anything. */
  lemma LinkDownPass(s: State, i: Inputs)
    requires !i.net.linkUp
    ensures Step(s, i).events == ButtonPass(s, i.level, i.now).events
    ensures Step(s, i).state.relay == ButtonPass(s, i.level, i.now).state.relay
    ensures !Step(s, i).state.wifiConnected
  {
  }

  /** A local press and a remote "TOGGL" delivered in the same pass cancel
      out: the local input is handled first and both changes are reported. */
  lemma PressThenRemoteToggle(s: State, i: Inputs)
    requires Debounce.Poll(s.button, i.level, i.now).pressed
    requires i.net.linkUp && i.net.sessionUp && i.net.inbound == Some(Command.TextBytes("TOGGL"))
    ensures Step(s, i).state.relay.on == s.relay.on
    ensures Step(s, i).events ==
      [Relay.StatusPublish(!s.relay.on), PressPublish, Pump, Relay.StatusPublish(s.relay.on)]
  {
    Command.TextRoundTrip("TOGGL");
  }

  /** Link lost in the middle of a session, then regained with a successful
      connect: the first pass is silent and the second repeats the full
      session opening with the current relay state. */
  lemma ReconnectAfterLinkLoss(s: State, lost: Inputs, back: Inputs)
    requires lost.level == s.button.lastLevel && back.level == s.button.lastLevel
    requires !lost.net.linkUp
    requires back.net.linkUp && !back.net.sessionUp && back.net.connectOk
    ensures Run(s, [lost, back]).events == [ConnectWithWill] + Supervisor.SessionOpened(s.relay.on)
    ensures Run(s, [lost, back]).state == s.(wifiConnected := true)
  {
    var o1 := Step(s, lost);
    assert o1 == Outcome(s.(wifiConnected := false), []);
    var o2 := Step(o1.state, back);
    assert o2 == Outcome(s.(wifiConnected := true), [ConnectWithWill] + Supervisor.SessionOpened(s.relay.on));
    assert [lost, back][1..] == [back];
    assert Run(o1.state, [back]) == o2;
  }

  /** How often an event occurs in a trace. */
  function Count(es: seq<Event>, e: Event): nat {
    if |es| == 0 then 0 else (if es[0] == e then 1 else 0) + Count(es[1..], e)
  }

  lemma {:induction false} CountAppend(a: seq<Event>, b: seq<Event>, e: Event)
    ensures Count(a + b, e) == Count(a, e) + Count(b, e)
  {
    if |a| > 0 {
      assert (a + b)[1..] == a[1..] + b;
      CountAppend(a[1..], b, e);
    } else {
      assert a + b == b;
    }
  }

  /** The button readings of a sequence of passes. */
  function Readings(ins: seq<Inputs>): (rs: seq<Debounce.Reading>)
    ensures |rs| == |ins|
    ensures forall k :: 0 <= k < |ins| ==> rs[k] == Debounce.Reading(ins[k].level, ins[k].now)
  {
    seq(|ins|, k requires 0 <= k < |ins| => Debounce.Reading(ins[k].level, ins[k].now))
  }

  /** The connectivity block never announces a press. */
  lemma NetworkNeverPresses(w: bool, r: Relay.RelayState, n: Supervisor.Network)
    ensures PressPublish !in Supervisor.Supervise(w, r, n).events
  {
    assert ButtonTopic != RelayTopic by { assert |ButtonTopic| != |RelayTopic|; }
    assert ButtonTopic != CmdTopic by { assert |ButtonTopic| != |CmdTopic|; }
    assert ButtonTopic != OnlineTopic by { assert ButtonTopic[9] != OnlineTopic[9]; }
  }

  /** A pass announces a press exactly once when the debouncer accepts one,
      and never otherwise. */
  lemma StepPressCount(s: State, i: Inputs)
    ensures Count(Step(s, i).events, PressPublish) ==
            if Debounce.Poll(s.button, i.level, i.now).pressed then 1 else 0
  {
    var b := ButtonPass(s, i.level, i.now);
    var n := Supervisor.Supervise(b.state.wifiConnected, b.state.relay, i.net);
    NetworkNeverPresses(b.state.wifiConnected, b.state.relay, i.net);
    CountAppend(b.events, n.events, PressPublish);
    CountAbsent(n.events, PressPublish);
    assert Relay.StatusPublish(!s.relay.on) != PressPublish;
  }

  lemma {:induction false} CountAbsent(es: seq<Event>, e: Event)
    requires e !in es
    ensures Count(es, e) == 0
  {
    if |es| > 0 {
      assert e !in es[1..];
      CountAbsent(es[1..], e);
    }
  }

  /** Over any run of the loop, the debouncer state and the number of "PRESS"
      announcements are exactly those of the debouncer fed the button
      readings alone: connectivity and commands never interfere with it. */
  lemma {:induction false} RunMatchesDebouncer(s: State, ins: seq<Inputs>)
    ensures Run(s, ins).state.button == Debounce.PollAll(s.button, Readings(ins)).button
    ensures Count(Run(s, ins).events, PressPublish) == Debounce.PollAll(s.button, Readings(ins)).presses
    decreases |ins|
  {
    if |ins| > 0 {
      var o1 := Step(s, ins[0]);
      var o2 := Run(o1.state, ins[1..]);
      RunMatchesDebouncer(o1.state, ins[1..]);
      StepPressCount(s, ins[0]);
      CountAppend(o1.events, o2.events, PressPublish);
      assert Readings(ins)[1..] == Readings(ins[1..]);
    }
  }

  /** A clean press that starts outside a window, seen by the loop as
      readings at LOW after the button last read HIGH with no window open, is
      announced exactly once over the run. */
  lemma CleanPressAnnouncedOnce(s: State, ins: seq<Inputs>)
    requires !s.button.inDebounce && s.button.lastLevel == High
    requires |ins| > 0
    requires forall k :: 0 <= k < |ins| ==> ins[k].level == Low
    ensures Count(Run(s, ins).events, PressPublish) == 1
  {
    RunMatchesDebouncer(s, ins);
    Debounce.CleanPressOnce(s.button, Readings(ins));
  }

  /** A press from the resting state after a release (HIGH inside a window
      whose exit test the first LOW reading meets) is announced exactly once
      when the loop sees it at two or more readings, and not at all when it
      sees it at only one. */
  lemma PressFromRestAnnounced(s: State, ins: seq<Inputs>)
    requires s.button.inDebounce && s.button.lastLevel == High
    requires |ins| > 0 && Debounce.WindowCloses(s.button.pressTime, ins[0].now)
    requires forall k :: 0 <= k < |ins| ==> ins[k].level == Low
    ensures Count(Run(s, ins).events, PressPublish) == if |ins| >= 2 then 1 else 0
  {
    RunMatchesDebouncer(s, ins);
    Debounce.PressFromRest(s.button, Readings(ins));
  }

  /** The relay flag after `n` toggles from `on`. */
  function Flipped(on: bool, n: nat): bool {
    if n % 2 == 0 then on else !on
  }

  /** When no command is delivered on any pass, whatever the link and the
      session do, the relay changes only by the button: its flag ends flipped
      once per press the debouncer accepts from the button readings alone. */
  lemma {:induction false} RelayFollowsPresses(s: State, ins: seq<Inputs>)
    requires forall k :: 0 <= k < |ins| ==> ins[k].net.inbound.None?
    ensures Run(s, ins).state.relay.on == Flipped(s.relay.on, Debounce.PollAll(s.button, Readings(ins)).presses)
    decreases |ins|
  {
    if |ins| > 0 {
      var o1 := Step(s, ins[0]);
      RelayFollowsPresses(o1.state, ins[1..]);
      assert Readings(ins)[1..] == Readings(ins[1..]);
    }
  }
}

=== FILE: debounce.dfy ===
/** The button debouncer at the head of `loop` (src/sonoff.cpp lines 126-151):
    a two-state machine over the last accepted level, the time the last edge
    was accepted and the `inDebounce` flag. Every accepted edge opens a
    window, and the window's exit test runs only on a reading that differs
    from the last accepted level: the window never expires on time alone.
    After a release the debouncer therefore rests inside the release's
    window. Once more than 50 ms have passed since the release, the first
    LOW reading of the next press only closes that window, and the press (a
    HIGH to LOW edge of the active-low button) is acted on at the second LOW
    reading; LOW readings within 50 ms of the release leave the window open.
    A press reached from outside a window is acted on at its first reading,
    and the window it opens then swallows bounces. */
module Debounce {
  import opened Platform

  /** Length of the debounce window in milliseconds. */
  const WindowMs: U32 := 50

  /** `lastButtonState`, `buttonPressTime` and `inDebounce`. */
  datatype Button = Button(lastLevel: Level, pressTime: U32, inDebounce: bool)

  /** The static initialisers: LOW, 0 and not debouncing. The input is pulled
      up, so the idle reading is HIGH and differs from this start level. */
  const PowerOn: Button := Button(Low, 0, false)

  /** The debouncer's new state and whether this reading was an accepted press. */
  datatype Polled = Polled(button: Button, pressed: bool)

  /** The exit test of an open window: `pressTime + 50 < now` in unsigned
      32-bit arithmetic, or `now < pressTime` once the clock has wrapped.
      Without modular arithmetic: the clock went backwards, or the stamp lies
      within 50 ms of the wrap, or more than 50 ms have passed. */
  function WindowCloses(pressTime: U32, now: U32): (c: bool)
    ensures c <==> now < pressTime || pressTime + WindowMs >= 0x1_0000_0000 || pressTime + WindowMs < now
  {
    AddU32(pressTime, WindowMs) < now || now < pressTime
  }

  /** One pass of the button block with the sampled level and `millis()`. */
  function Poll(b: Button, level: Level, now: U32): (p: Polled)
    ensures level == b.lastLevel ==> p == Polled(b, false)
    ensures p.button.lastLevel == b.lastLevel || p.button.lastLevel == level
    ensures p.button.lastLevel != b.lastLevel ==> p.button.inDebounce && p.button.pressTime == now
    ensures p.pressed ==> b.lastLevel == High && p.button.lastLevel == Low
  {
    if level != b.lastLevel then
      if b.inDebounce then
        Polled(b.(inDebounce := !WindowCloses(b.pressTime, now)), false)
      else
        var newLevel := Complement(b.lastLevel);
        Polled(Button(newLevel, now, true), newLevel == Low)
    else
      Polled(b, false)
  }

  /** Outside a window, a reading that differs from the last level opens a
      window stamped `now`, takes the new level, and is a press exactly when
      the new level is LOW. */
  lemma AcceptedEdge(b: Button, level: Level, now: U32)
    requires !b.inDebounce && level != b.lastLevel
    ensures Poll(b, level, now).button == Button(level, now, true)
    ensures Poll(b, level, now).pressed <==> level == Low
  {
  }

  /** Inside a window nothing is pressed and the level and stamp are kept;
      the window closes exactly when the reading differs and the exit test holds. */
  lemma InsideWindow(b: Button, level: Level, now: U32)
    requires b.inDebounce
    ensures var p := Poll(b, level, now);
            && !p.pressed
            && p.button.lastLevel == b.lastLevel
            && p.button.pressTime == b.pressTime
            && (!p.button.inDebounce <==> level != b.lastLevel && WindowCloses(b.pressTime, now))
  {
  }

  /** The first reading of the idle (released, HIGH) button after power-on
      opens a window but is not a press. */
  lemma FirstReleaseNoPress(now: U32)
    ensures Poll(PowerOn, High, now) == Polled(Button(High, now, true), false)
  {
  }

  /** Away from the clock wrap the window is the intended one: it closes
      only once more than 50 ms have passed, or when the clock went backwards. */
  lemma WindowWithoutWrap(pressTime: U32, now: U32)
    requires pressTime + WindowMs < 0x1_0000_0000
    ensures WindowCloses(pressTime, now) <==> now < pressTime || now - pressTime > WindowMs
  {
  }

  /** Within 50 ms of the clock wrap the sum `pressTime + 50` wraps too, so
      the window closes at the very next differing reading, whatever its time. */
  lemma NoWindowNearWrap(pressTime: U32, now: U32)
    requires pressTime + WindowMs >= 0x1_0000_0000
    ensures WindowCloses(pressTime, now)
  {
  }

  /** One timed reading of the button pin. */
  datatype Reading = Reading(level: Level, now: U32)

  /** The number of readings at LOW. */
  function LowCount(rs: seq<Reading>): nat {
    if |rs| == 0 then 0 else (if rs[0].level == Low then 1 else 0) + LowCount(rs[1..])
  }

  /** The debouncer after a sequence of loop passes, and how many presses it accepted. */
  datatype Trace = Trace(button: Button, presses: nat)

  /** Polls the readings in order; every press is a reading at LOW. */
  function PollAll(b: Button, rs: seq<Reading>): (t: Trace)
    ensures t.presses <= LowCount(rs)
    decreases |rs|
  {
    if |rs| == 0 then Trace(b, 0)
    else
      var p := Poll(b, rs[0].level, rs[0].now);
      var t := PollAll(p.button, rs[1..]);
      Trace(t.button, t.presses + if p.pressed then 1 else 0)
  }

  /** A held level changes nothing and produces no press. */
  lemma {:induction false} SteadyLevel(b: Button, rs: seq<Reading>)
    requires forall i :: 0 <= i < |rs| ==> rs[i].level == b.lastLevel
    ensures PollAll(b, rs) == Trace(b, 0)
  {
    if |rs| > 0 {
      SteadyLevel(b, rs[1..]);
    }
  }

  /** A clean press that starts outside a window (readings at LOW after the
      button last read HIGH with no window open) is acted on exactly once, at
      its first reading, however long it is held. */
  lemma {:induction false} CleanPressOnce(b: Button, rs: seq<Reading>)
    requires !b.inDebounce && b.lastLevel == High
    requires |rs| > 0
    requires forall i :: 0 <= i < |rs| ==> rs[i].level == Low
    ensures PollAll(b, rs).presses == 1
    ensures PollAll(b, rs).button == Button(Low, rs[0].now, true)
  {
    var p := Poll(b, rs[0].level, rs[0].now);
    assert p.button == Button(Low, rs[0].now, true);
    SteadyLevel(p.button, rs[1..]);
  }

  /** A press from the resting state after a release: the button last read
      HIGH inside a window, and the first LOW reading meets the exit test.
      That reading only closes the window, so a press seen by a single
      reading is lost and a longer one is acted on exactly once, at its
      second reading. */
  lemma PressFromRest(b: Button, rs: seq<Reading>)
    requires b.inDebounce && b.lastLevel == High
    requires |rs| > 0 && WindowCloses(b.pressTime, rs[0].now)
    requires forall i :: 0 <= i < |rs| ==> rs[i].level == Low
    ensures PollAll(b, rs).presses == if |rs| >= 2 then 1 else 0
    ensures |rs| >= 2 ==> PollAll(b, rs).button == Button(Low, rs[1].now, true)
  {
    var p := Poll(b, rs[0].level, rs[0].now);
    assert p == Polled(b.(inDebounce := false), false);
    if |rs| >= 2 {
      CleanPressOnce(p.button, rs[1..]);
    } else {
      assert rs[1..] == [];
    }
  }

  /** Any bouncing while a window is open and no more than 50 ms old (with no
      wrap of `pressTime + 50`) is swallowed: no press and no change at all. */
  lemma {:induction false} BounceSuppressed(b: Button, rs: seq<Reading>)
    requires b.inDebounce
    requires b.pressTime + WindowMs < 0x1_0000_0000
    requires forall i :: 0 <= i < |rs| ==> b.pressTime <= rs[i].now <= b.pressTime + WindowMs
    ensures PollAll(b, rs) == Trace(b, 0)
  {
    if |rs| > 0 {
      WindowWithoutWrap(b.pressTime, rs[0].now);
      assert Poll(b, rs[0].level, rs[0].now) == Polled(b, false);
      BounceSuppressed(b, rs[1..]);
    }
  }

  /** After an edge is accepted, readings of any level up to 50 ms later (no
      wrap) add nothing: the whole burst is one press if the edge went LOW,
      and none if it went HIGH. */
  lemma BounceAfterEdge(b: Button, rs: seq<Reading>)
    requires !b.inDebounce
    requires |rs| > 0 && rs[0].level != b.lastLevel
    requires rs[0].now + WindowMs < 0x1_0000_0000
    requires forall i :: 0 <= i < |rs| ==> rs[0].now <= rs[i].now <= rs[0].now + WindowMs
    ensures PollAll(b, rs).presses == if rs[0].level == Low then 1 else 0
    ensures PollAll(b, rs).button == Button(rs[0].level, rs[0].now, true)
  {
    var p := Poll(b, rs[0].level, rs[0].now);
    AcceptedEdge(b, rs[0].level, rs[0].now);
    BounceSuppressed(p.button, rs[1..]);
  }

  /** The window is closed only by a differing reading, and that reading is
      not itself acted on: a press that arrives after the window has expired
      is accepted at the next reading. */
  lemma PressOneReadingLate(b: Button, now1: U32, now2: U32)
    requires b.inDebounce && b.lastLevel == High
    requires b.pressTime + WindowMs < now1
    ensures var p1 := Poll(b, Low, now1);
            && !p1.pressed && !p1.button.inDebounce
            && Poll(p1.button, Low, now2) == Polled(Button(Low, now2, true), true)
  {
  }
}

=== FILE: platform.dfy ===
/** Shared vocabulary of the smart-relay firmware: digital pin levels, the
    32-bit millisecond clock, payload bytes, the message topics and the calls
    the firmware makes into its publish/subscribe client, recorded as a trace
    of events. */
module Platform {

  datatype Option<T> = None | Some(value: T)

  /** A digital pin level: LOW reads as 0 and HIGH as 1 on the board. */
  datatype Level = Low | High

  /** The other level; the status LED is driven with the complement of the relay pin. */
  function Complement(l: Level): (r: Level)
    ensures r != l
  {
    if l == Low then High else Low
  }

  /** A C `unsigned long` on the ESP8266, which is 32 bits wide. */
  type U32 = x: int | 0 <= x < 0x1_0000_0000

  /** Unsigned 32-bit addition as C performs it: the carry out of bit 31 is lost. */
  function AddU32(a: U32, b: U32): (r: U32)
    ensures a + b < 0x1_0000_0000 ==> r == a + b
    ensures a + b >= 0x1_0000_0000 ==> r == a + b - 0x1_0000_0000
  {
    (a + b) % 0x1_0000_0000
  }

  /** One byte of an inbound message payload. */
  type Byte = x: int | 0 <= x < 256

  /** Per-device topic prefix and client identity (src/sonoff.cpp lines 29-30). */
  const TopicPrefix: string := "sonoff/1/"
  const ClientId: string := "sonof_1"

  const RelayTopic: string := TopicPrefix + "relay"
  const ButtonTopic: string := TopicPrefix + "button"
  const OnlineTopic: string := TopicPrefix + "online"
  const CmdTopic: string := TopicPrefix + "cmd"

  /** A call the firmware makes into the messaging client, in the order made. */
  datatype Event =
    | Publish(topic: string, payload: string, retained: bool)
      /** `client.connect(id, willTopic, willQos, willRetain, willMessage)` */
    | Connect(clientId: string, willTopic: string, willQos: nat, willRetain: bool, willMessage: string)
    | SetCallback
    | Subscribe(topic: string)
      /** `client.loop()`: keepalive and delivery of a buffered inbound message */
    | Pump

  /** The connect call of the reconnect branch: last will "false", retained, on the online topic. */
  const ConnectWithWill: Event := Connect(ClientId, OnlineTopic, 0, true, "false")
}

=== FILE: relay.dfy ===
/** The relay controller: the `relayOn` flag, the relay output pin and the
    status LED, switched together and reported on the `relay` topic on every
    call (src/sonoff.cpp lines 35-79). */
module Relay {
  import opened Platform

  /** The flag and the levels last written to the relay and LED pins. */
  datatype RelayState = RelayState(on: bool, relayPin: Level, ledPin: Level)

  /** A relay operation's new state and the client calls it made, in order. */
  datatype Outcome = Outcome(relay: RelayState, events: seq<Event>)

  /** The flag and both pins agree: the relay pin is HIGH exactly when the
      relay is on, and the (active-low) LED pin is its complement. */
  predicate Consistent(r: RelayState) {
    && r.relayPin == (if r.on then High else Low)
    && r.ledPin == Complement(r.relayPin)
  }

  /** `relayOn = false` at load time, before `setup` has written either pin. */
  const PowerOn: RelayState := RelayState(false, Low, Low)

  /** The retained status message that reports the flag. */
  function StatusPublish(on: bool): Event {
    Publish(RelayTopic, if on then "ON" else "OFF", true)
  }

  /** switchRelayOn: whatever the previous state, the relay ends on with its
      pins consistent, and exactly one retained "ON" is published. */
  function SwitchOn(r: RelayState): (o: Outcome)
    ensures o.relay.on && o.relay.relayPin == High && o.relay.ledPin == Low
    ensures Consistent(o.relay)
    ensures o.events == [Publish(RelayTopic, "ON", true)]
  {
    Outcome(RelayState(true, High, Low), [StatusPublish(true)])
  }

  /** switchRelayOff: the mirror image of SwitchOn. */
  function SwitchOff(r: RelayState): (o: Outcome)
    ensures !o.relay.on && o.relay.relayPin == Low && o.relay.ledPin == High
    ensures Consistent(o.relay)
    ensures o.events == [Publish(RelayTopic, "OFF", true)]
  {
    Outcome(RelayState(false, Low, High), [StatusPublish(false)])
  }

  /** toggleRelay: negates the flag, keeps the pins consistent and reports the new value. */
  function Toggle(r: RelayState): (o: Outcome)
    ensures o.relay.on == !r.on
    ensures Consistent(o.relay)
    ensures o.events == [StatusPublish(o.relay.on)]
  {
    if r.on then SwitchOff(r) else SwitchOn(r)
  }

  /** The boot-state branch of `setup`: the configured default decides the state. */
  function Boot(defaultOn: bool): (o: Outcome)
    ensures o.relay.on == defaultOn
    ensures Consistent(o.relay)
    ensures o.events == [StatusPublish(defaultOn)]
  {
    if defaultOn then SwitchOn(PowerOn) else SwitchOff(PowerOn)
  }

  /** Repeating a switch changes nothing physical but republishes each time. */
  lemma SwitchRepublishes(r: RelayState)
    ensures var o1 := SwitchOn(r); var o2 := SwitchOn(o1.relay);
            o2.relay == o1.relay && o1.events + o2.events == [StatusPublish(true), StatusPublish(true)]
    ensures var o1 := SwitchOff(r); var o2 := SwitchOff(o1.relay);
            o2.relay == o1.relay && o1.events + o2.events == [StatusPublish(false), StatusPublish(false)]
  {
  }

  /** Toggling twice restores the flag and both pins of a consistent state,
      reporting the opposite value first and the original value second. */
  lemma ToggleTwice(r: RelayState)
    requires Consistent(r)
    ensures var o1 := Toggle(r); var o2 := Toggle(o1.relay);
            o2.relay == r && o1.events + o2.events == [StatusPublish(!r.on), StatusPublish(r.on)]
  {
  }

  /** The flag alone determines a consistent state. */
  lemma ConsistentDeterminedByFlag(a: RelayState, b: RelayState)
    requires Consistent(a) && Consistent(b)
    ensures a == b <==> a.on == b.on
  {
  }
}

=== FILE: supervisor.dfy ===
/** The reconnect supervisor at the tail of `loop` (src/sonoff.cpp lines
    154-183): an edge-tracked `wifiConnected` flag, an early return while the
    link is down, and, on an up link, either a pass of the messaging client
    (which may deliver one inbound command) or a connect attempt with a last
    will, followed on success by a fixed sequence of publishes and the
    command subscription. */
module Supervisor {
  import opened Platform
  import Relay
  import Command

  /** What the hardware and client libraries answer during one pass:
      `wifiMulti.run() == WL_CONNECTED`, `client.connected()`, the result of
      `client.connect(...)` and the message, if any, that `client.loop()`
      hands to the callback. */
  datatype Network = Network(linkUp: bool, sessionUp: bool, connectOk: bool, inbound: Option<seq<Byte>>)

  /** The supervisor's new flag, the relay after any inbound command, and the client calls made. */
  datatype Outcome = Outcome(wifiConnected: bool, relay: Relay.RelayState, events: seq<Event>)

  /** What a successful connect publishes and registers, in order: presence,
      the retained no-op command that clears a stale retained one, the relay
      status, the callback and the command subscription. */
  function SessionOpened(on: bool): (es: seq<Event>)
    ensures |es| == 5
    ensures es[0] == Publish(OnlineTopic, if on then "on" else "off", true)
    ensures es[1] == Publish(CmdTopic, "NOCMD", true)
    ensures es[2] == Relay.StatusPublish(on)
    ensures es[3] == SetCallback && es[4] == Subscribe(CmdTopic)
  {
    [ Publish(OnlineTopic, if on then "on" else "off", true),
      Publish(CmdTopic, "NOCMD", true),
      Relay.StatusPublish(on),
      SetCallback,
      Subscribe(CmdTopic) ]
  }

  /** The `wifiConnected` update: it is written only when the link result
      differs from it (where the change is logged), so it always ends equal
      to the latest link result. */
  function TrackLink(wifiConnected: bool, linkUp: bool): (w: bool)
    ensures w == linkUp
  {
    if linkUp then
      if !wifiConnected then true else wifiConnected
    else
      if wifiConnected then false else wifiConnected
  }

  /** One pass of the connectivity block. */
  function Supervise(wifiConnected: bool, r: Relay.RelayState, n: Network): (o: Outcome)
    ensures o.wifiConnected == n.linkUp
    ensures !n.linkUp ==> o.events == [] && o.relay == r
    ensures n.linkUp && !n.sessionUp ==> o.relay == r && |o.events| > 0 && o.events[0] == ConnectWithWill
    ensures n.linkUp && n.sessionUp ==> |o.events| > 0 && o.events[0] == Pump && Pump !in o.events[1..]
    ensures Relay.Consistent(r) ==> Relay.Consistent(o.relay)
  {
    var w := TrackLink(wifiConnected, n.linkUp);
    if !n.linkUp then
      Outcome(w, r, [])
    else if n.sessionUp then
      match n.inbound
      case None => Outcome(w, r, [Pump])
      case Some(payload) =>
        var c := Command.Callback(r, payload);
        Outcome(w, c.relay, [Pump] + c.events)
    else if n.connectOk then
      Outcome(w, r, [ConnectWithWill] + SessionOpened(r.on))
    else
      Outcome(w, r, [ConnectWithWill])
  }

  /** With the link down the pass returns early: the flag is cleared and
      there is no connect, publish, subscribe or client pass, whatever the
      session and inbound inputs say. */
  lemma LinkDownReturnsEarly(w: bool, r: Relay.RelayState, n: Network)
    requires !n.linkUp
    ensures Supervise(w, r, n) == Outcome(false, r, [])
  {
  }

  /** A successful connect produces exactly the attempt followed by the five
      calls of a session opening, in this order, and leaves the relay alone. */
  lemma ConnectSucceeds(w: bool, r: Relay.RelayState, n: Network)
    requires n.linkUp && !n.sessionUp && n.connectOk
    ensures Supervise(w, r, n).relay == r
    ensures Supervise(w, r, n).events ==
      [ Connect("sonof_1", "sonoff/1/online", 0, true, "false"),
        Publish("sonoff/1/online", if r.on then "on" else "off", true),
        Publish("sonoff/1/cmd", "NOCMD", true),
        Publish("sonoff/1/relay", if r.on then "ON" else "OFF", true),
        SetCallback,
        Subscribe("sonoff/1/cmd") ]
  {
    assert OnlineTopic == "sonoff/1/online";
    assert CmdTopic == "sonoff/1/cmd";
    assert RelayTopic == "sonoff/1/relay";
  }

  /** A failed connect records only the attempt and changes nothing else. */
  lemma ConnectFails(w: bool, r: Relay.RelayState, n: Network)
    requires n.linkUp && !n.sessionUp && !n.connectOk
    ensures Supervise(w, r, n) == Outcome(true, r, [ConnectWithWill])
  {
  }

  /** With the session up the client is pumped once, and a delivered message
      is handed to the command callback after that. */
  lemma SessionUpPumps(w: bool, r: Relay.RelayState, n: Network)
    requires n.linkUp && n.sessionUp
    ensures n.inbound.None? ==> Supervise(w, r, n) == Outcome(true, r, [Pump])
    ensures n.inbound.Some? ==>
      var c := Command.Callback(r, n.inbound.value);
      Supervise(w, r, n) == Outcome(true, c.relay, [Pump] + c.events)
    ensures ConnectWithWill !in Supervise(w, r, n).events
  {
  }
}
